=== FILE: README.md ===
# Octopus Energy: electricity rate refresh and off-peak sensor

A Dafny model of three pieces of decision logic in the Octopus Energy Home
Assistant integration:

- **Active-tariff resolution** (`get_active_tariff_code`): the tariff code of
  the agreement whose validity window contains an instant. The model takes
  the window as half-open, `[valid_from, valid_to)`. A missing `valid_to`
  makes the window open-ended.
- **Electricity-rate refresh** (`async_refresh_electricity_rates_data`): one
  refresh of the coordinator's cache (MPAN → list of half-hour rate periods).
  Without account information, the existing cache comes back unchanged. Meter
  points with no active tariff are dropped. A meter point's cached entry is
  reused off the half hour. A missing entry, or a `:00`/`:30` minute, triggers
  a fetch of `[startOfDay(now - 1 day), startOfDay(now + 2 days))`. A fetch
  that returns nothing falls back to the cached entry. Every period that
  overlaps a planned or completed dispatch is re-priced at the list's lowest
  price and flagged `is_intelligent_adjusted`.
- **Off-peak sensor** (`OctopusEnergyElectricityOffPeak.is_on` and its
  restore): a sample-and-hold of "the current period's price is the off-peak
  price". It resamples only on the first read, after a sample more than 30
  minutes old, or on a `:00`/`:30` minute.

Modules, one per component:

| file | module | what |
|---|---|---|
| option.dfy | `Optional` | `Option`, for Python's `None` |
| time.dfy | `Time` | instants as integer seconds on one fixed-offset local clock; minute of the hour, start of day, the fetch window |
| rates.dfy | `Rates` | `Rate` periods; lowest price and the period covering an instant |
| tariffs.dfy | `Tariffs` | agreements and the active tariff |
| dispatch.dfy | `Dispatches` | dispatches and the intelligent re-pricing |
| refresh.dfy | `RatesRefresh` | the per-meter-point refresh and the whole refresh |
| offpeak.dfy | `OffPeak` | the off-peak sensor as a step function on `(state, last_updated)` |
| scenarios.dfy | `Scenarios` | the unit tests' concrete cases replayed on the model |

The model of `get_active_tariff_code` and `async_refresh_electricity_rates_data`
follows the assertions of their unit tests. Those assertions fix the
following:

- **Fetch.** The API client's fetch is a function argument
  `FetchRequest -> Option<RateSet>`. `FetchRequest` carries the arguments of
  the call (tariff code, smart-meter flag, `period_from`, `period_to`). The
  refresh returns the list of requests it made, so "fetch was / was not
  called, and with which window" is a real output.
- **Tariff choice.** The code returned is that of the agreement whose
  window contains `now`, or none when no window does. The tests only use
  lists with at most one active agreement.

Where the tests say nothing, the model makes these choices of its own:

- **Window boundaries.** An agreement's window includes `valid_from` and
  excludes `valid_to`. No tariff test puts `now` on a window edge, so an
  inclusive end would fit the tests equally well. The choice matters for
  the zero-length agreement of the first tariff test: under it, that
  agreement is active at no instant and cannot displace another
  (`Tariffs.ZeroLengthAgreementNeverActive`).
- **First active agreement.** When several agreements are active at once,
  the first one in list order is chosen.
- **Empty cache.** With neither account information nor an existing cache,
  the refresh returns an empty cache.
- **Dispatch adjustment of every entry.** The adjustment is applied to
  whichever entry the refresh ends up with: fetched, fallback or reused. The
  tests that exercise the fallback and reused entries pass no dispatches.
  With the same dispatches, the re-adjustment is a no-op
  (`Dispatches.AdjustIdempotent`). One consequence: a reused entry keeps
  the lowered price and the flag of a period adjusted for a dispatch that
  is no longer reported, until the next fetch replaces the entry
  (`Dispatches.AdjustedPeriodStaysAdjusted`).
- **Overlap.** A period and a dispatch overlap when their half-open windows
  share an instant (`Dispatches.OverlapsIffSharedInstant`). Periods that only
  touch a dispatch are not adjusted, and neither an empty nor an inverted
  dispatch window adjusts anything. The
  one dispatch in the tests is aligned to period edges, so a containment rule
  would fit the tests equally well.
- **Empty rate list.** A rate list with no periods has no lowest price, so
  the adjustment returns it unchanged.
- **Already cheapest.** A period already at the lowest price that overlaps a
  dispatch is still flagged. The tests' overlapped periods are priced 2
  and 3.
- **Off-peak helpers.** `get_off_peak_cost` and `get_current_rate_information`
  are function arguments of the sensor step. Their natural readings are given
  as `Rates.LowestPrice` (the minimum `value_inc_vat`) and `Rates.RateAt` (the
  first period with `valid_from <= now < valid_to`). The lemmas that need
  concrete helpers use these two.

## Model

| member | source | states |
|---|---|---|
| Time.StartOfDay | tests/unit/coordinators/test_async_refresh_electricity_rates_data.py:167-168 | `replace(hour=0, minute=0, second=0)` yields the unique midnight at or before the instant, less than a day earlier |
| Time.StartOfDayUnique | tests/unit/coordinators/test_async_refresh_electricity_rates_data.py:167-168 | any midnight within the day before an instant is that instant's start of day |
| Time.StartOfDayShift | tests/unit/coordinators/test_async_refresh_electricity_rates_data.py:167-168 | adding whole days to an instant adds the same days to its start of day |
| Time.FetchWindowIsThreeDays | tests/unit/coordinators/test_async_refresh_electricity_rates_data.py:167-168 | the fetch window is yesterday, today and tomorrow: midnight-aligned, three days long, at least one day either side of `now` |
| Time.OnHalfHourIffFirstMinute | custom_components/octopus_energy/electricity/off_peak.py:63 | `minute % 30 == 0` holds exactly in the first 60 seconds after each half-hour mark |
| Time.MinuteOfHour | tests/unit/coordinators/test_async_refresh_electricity_rates_data.py:104-108 | the minute field of an instant lies in 0..59 |
| Time.MinuteOfHourLocatesInstant | tests/unit/coordinators/test_async_refresh_electricity_rates_data.py:104-108 | the minute field is the number of whole minutes since the start of the hour: the instant lies in that minute of its hour |
| Rates.LowestPrice | custom_components/octopus_energy/electricity/off_peak.py:65 | off-peak cost: none for an empty list, otherwise a price that occurs in the list and is no higher than any price in it |
| Rates.LowestPriceUnique | custom_components/octopus_energy/electricity/off_peak.py:65 | any occurring price that bounds all prices from below is the off-peak cost |
| Rates.RateAt | custom_components/octopus_energy/electricity/off_peak.py:67 | the current period: none iff no period covers the instant; otherwise the first period that covers it |
| Rates.SoleCoveringRate | custom_components/octopus_energy/electricity/off_peak.py:67 | when exactly one period covers the instant, it is the current period |
| Tariffs.ActiveTariffCode | tests/unit/utils/test_get_active_tariff_code.py:40-44 | none iff no agreement is active at `now`; otherwise the code of the first agreement whose window contains `now` |
| Tariffs.SoleActiveAgreementWins | tests/unit/utils/test_get_active_tariff_code.py:7-44 | with exactly one agreement active, its code is returned whatever the ended, future or zero-length agreements around it |
| Tariffs.ZeroLengthAgreementNeverActive | tests/unit/utils/test_get_active_tariff_code.py:27-31 | an agreement with `valid_from == valid_to` is active at no instant, so it cannot displace another |
| Tariffs.AllEndedMeansNone | tests/unit/utils/test_get_active_tariff_code.py:47-83 | when every agreement has ended by `now`, the result is none |
| Tariffs.NoneStartedMeansNone | tests/unit/utils/test_get_active_tariff_code.py:86-122 | when no agreement has started at `now`, the result is none |
| Tariffs.OpenEndedAgreementActive | tests/unit/utils/test_get_active_tariff_code.py:125-161 | an agreement without `valid_to` is active from its start on; its code is returned unless an earlier agreement is also active |
| Dispatches.OverlapsIffSharedInstant | tests/unit/coordinators/test_async_refresh_electricity_rates_data.py:268-273 | a period and a dispatch overlap exactly when some instant lies in both half-open windows |
| Dispatches.AdjustWith | tests/unit/coordinators/test_async_refresh_electricity_rates_data.py:264-274 | periods overlapping a dispatch are re-priced and flagged, all others are passed through unchanged, and the length is kept |
| Dispatches.AdjustIntelligentRates | tests/unit/coordinators/test_async_refresh_electricity_rates_data.py:260-274 | length and every window are kept. Overlapped periods get the list's lowest price and the adjusted flag. Other periods are identical to the input |
| Dispatches.NoDispatchesLeavesRatesUnchanged | tests/unit/coordinators/test_async_refresh_electricity_rates_data.py:120-132 | with empty planned and completed lists the rate list is returned unchanged |
| Dispatches.AdjustNeverRaisesPrice | tests/unit/coordinators/test_async_refresh_electricity_rates_data.py:268-271 | no period's price goes up |
| Dispatches.AdjustedFlagIffOverlap | tests/unit/coordinators/test_async_refresh_electricity_rates_data.py:268-273 | on an unflagged period, the adjusted flag is set exactly when the period overlaps a dispatch |
| Dispatches.AdjustedPeriodStaysAdjusted | tests/unit/coordinators/test_async_refresh_electricity_rates_data.py:103-133 | a flagged period that overlaps no current dispatch keeps its price and its flag |
| Dispatches.AdjustKeepsLowestPrice | tests/unit/coordinators/test_async_refresh_electricity_rates_data.py:268-271 | the adjusted list has the same lowest price as the original |
| Dispatches.AdjustIdempotent | tests/unit/coordinators/test_async_refresh_electricity_rates_data.py:244-274 | adjusting an adjusted list with the same dispatches changes nothing |
| Dispatches.PlannedAndCompletedAlike | tests/unit/coordinators/test_async_refresh_electricity_rates_data.py:244-248 | swapping the planned and completed buckets gives the same adjustment |
| Dispatches.AdjustKeepsContiguity | tests/unit/coordinators/test_async_refresh_electricity_rates_data.py:260-262 | a contiguous list of periods stays contiguous after adjustment |
| RatesRefresh.RefreshPoint | tests/unit/coordinators/test_async_refresh_electricity_rates_data.py:75-100 | one meter point makes at most one fetch and has an entry only if it has an active tariff |
| RatesRefresh.AssembleKeys | tests/unit/coordinators/test_async_refresh_electricity_rates_data.py:150-152 | the new cache holds an MPAN iff some meter point with that MPAN produced an entry |
| RatesRefresh.AssembleEntry | tests/unit/coordinators/test_async_refresh_electricity_rates_data.py:150-152 | the new cache holds, under an MPAN, the entry of the last meter point with that MPAN that produced one |
| RatesRefresh.AssembleRequests | tests/unit/coordinators/test_async_refresh_electricity_rates_data.py:144-146 | the fetches of a refresh, as a set of requests, are exactly those of its meter points; how many there are is bounded by `RatesRefresh.RefreshRequestCount` |
| RatesRefresh.RefreshRequestCount | tests/unit/coordinators/test_async_refresh_electricity_rates_data.py:136-168 | a refresh makes at most one fetch per meter point of the account |
| RatesRefresh.CacheEntryOfPoint | tests/unit/coordinators/test_async_refresh_electricity_rates_data.py:150-165 | a meter point with an MPAN of its own has its own outcome in the new cache: its entry if it produced one, no key otherwise |
| RatesRefresh.RefreshElectricityRates | tests/unit/coordinators/test_async_refresh_electricity_rates_data.py:47-72 | without account info the existing cache is returned as it is (an empty cache when there is none) and nothing is fetched; with it, every MPAN in the new cache belongs to a meter point of the account with an active tariff |
| RatesRefresh.InactivePointDropped | tests/unit/coordinators/test_async_refresh_electricity_rates_data.py:75-100 | a meter point with no active tariff yields no entry and no fetch, whatever was cached |
| RatesRefresh.InactiveMpanAbsent | tests/unit/coordinators/test_async_refresh_electricity_rates_data.py:75-100 | an MPAN none of whose meter points has an active tariff is absent from the new cache |
| RatesRefresh.CachedEntryReusedOffHalfHour | tests/unit/coordinators/test_async_refresh_electricity_rates_data.py:103-133 | off the half hour a cached entry is reused without a fetch, and returned unchanged when there are no dispatches |
| RatesRefresh.NoFetchOffHalfHourWhenCached | tests/unit/coordinators/test_async_refresh_electricity_rates_data.py:103-133 | off the half hour, with every active meter point cached, a refresh makes no fetch |
| RatesRefresh.FetchesWindowWhenStale | tests/unit/coordinators/test_async_refresh_electricity_rates_data.py:136-228 | with no cached entry or on `:00`/`:30`, exactly one fetch is made, for the active tariff and `[startOfDay(now-1d), startOfDay(now+2d))`, and its result becomes the entry |
| RatesRefresh.FetchIffStale | tests/unit/coordinators/test_async_refresh_electricity_rates_data.py:103-228 | a meter point fetches iff it has an active tariff and either no cached entry or a `:00`/`:30` minute |
| RatesRefresh.AllFetchesUseWindow | tests/unit/coordinators/test_async_refresh_electricity_rates_data.py:167-168 | every fetch of a refresh asks for the same three-day window around `now` |
| RatesRefresh.FailedFetchKeepsPrevious | tests/unit/coordinators/test_async_refresh_electricity_rates_data.py:279-306 | a fetch returning nothing keeps the cached entry, verbatim without dispatches; with nothing cached the meter point drops out |
| RatesRefresh.RefreshStableOffHalfHour | tests/unit/coordinators/test_async_refresh_electricity_rates_data.py:103-133 | refreshing the refreshed entry again at any instant (later in the same half hour included) off the `:00`/`:30` minute, with the tariff still active and the same dispatches, reproduces the entry without a fetch |
| OffPeak.SensorReadsRefreshedEntry | custom_components/octopus_energy/electricity/off_peak.py:62 | for a meter point whose MPAN no other point shares, the rates the sensor reads after a refresh are exactly that point's refresh outcome: its entry, or nothing |
| OffPeak.SensorReadsExistingWithoutAccount | custom_components/octopus_energy/electricity/off_peak.py:62 | after a refresh without account info the sensor reads the same entry as before it |
| OffPeak.IsOn | custom_components/octopus_energy/electricity/off_peak.py:58-73 | a read either leaves the sensor as it was or, with rates present, stamps it `now`; a defined state stays defined |
| OffPeak.FirstReadSamples | custom_components/octopus_energy/electricity/off_peak.py:63-71 | a sensor that never sampled takes a sample stamped `now` as soon as rates are present |
| OffPeak.HalfHourOldSampleHeld | custom_components/octopus_energy/electricity/off_peak.py:63 | a sample exactly 30 minutes old is held (strict comparison) off the `:00`/`:30` minute |
| OffPeak.StaleSampleRefreshed | custom_components/octopus_energy/electricity/off_peak.py:63-71 | a sample more than 30 minutes old is replaced by a fresh sample stamped `now` |
| OffPeak.HalfHourMinuteSamples | custom_components/octopus_energy/electricity/off_peak.py:63-71 | on a `:00`/`:30` minute a fresh sample is always taken when rates are present |
| OffPeak.NoRatesHolds | custom_components/octopus_energy/electricity/off_peak.py:62-73 | without rates both the state and the sample time stay as they were |
| OffPeak.HeldWithinHalfHour | custom_components/octopus_energy/electricity/off_peak.py:63-73 | after a sample, any read in the next 30 minutes off the `:00`/`:30` minute returns it unchanged, whatever the rates then are |
| OffPeak.NaturalSampleIsCheapestNow | custom_components/octopus_energy/electricity/off_peak.py:65-69 | with the natural helpers a sample is true iff a period covers `now` and its price is no higher than any price in the list |
| OffPeak.FreshSensorRestoresOff | custom_components/octopus_energy/electricity/off_peak.py:32-34 | a newly constructed sensor with nothing to restore reads false and has never sampled |
| OffPeak.Restore | custom_components/octopus_energy/electricity/off_peak.py:81-85 | after restore the state is the restored value if any, else the old state, else false; it is never none; the sample time is untouched |
| OffPeak.StateStaysDefined | custom_components/octopus_energy/electricity/off_peak.py:58-73 | once defined, the state stays defined through any sequence of reads |
| OffPeak.RestoredStateStaysDefined | custom_components/octopus_energy/electricity/off_peak.py:75-85 | after restore, no sequence of reads makes the state none again |
| Scenarios.ActiveTariffExample | tests/unit/utils/test_get_active_tariff_code.py:7-44 | on the test's five agreements at 2022-03-23 the code is `G-1R-FIX-12M-21-02-16-G` |
| Scenarios.EndedTariffExample | tests/unit/utils/test_get_active_tariff_code.py:47-83 | at 2022-04-03 the result is none |
| Scenarios.NotStartedTariffExample | tests/unit/utils/test_get_active_tariff_code.py:86-122 | at 2018-01-01 the result is none |
| Scenarios.OpenEndedTariffExample | tests/unit/utils/test_get_active_tariff_code.py:125-161 | with the last agreement open-ended, at 2022-04-01 its code is returned |
| Scenarios.SinglePointRefresh | tests/unit/coordinators/test_async_refresh_electricity_rates_data.py:18-44 | refreshing the one-meter-point test account gives that point's outcome under its MPAN |
| Scenarios.TestWindow | tests/unit/coordinators/test_async_refresh_electricity_rates_data.py:10-12 | at 2023-07-14 10:30:01 the window is 2023-07-13 00:00 to 2023-07-16 00:00 and the minute is on the half hour |
| Scenarios.NoAccountExample | tests/unit/coordinators/test_async_refresh_electricity_rates_data.py:47-72 | no account info: the cache comes back equal and no fetch is made |
| Scenarios.NoActiveTariffExample | tests/unit/coordinators/test_async_refresh_electricity_rates_data.py:75-100 | no active agreement: an empty cache and no fetch |
| Scenarios.TestMinute | tests/unit/coordinators/test_async_refresh_electricity_rates_data.py:104-108 | `current.replace(minute=m)` on 10:30:01 has minute field `m` |
| Scenarios.OffHalfHourExample | tests/unit/coordinators/test_async_refresh_electricity_rates_data.py:103-133 | at 10:mm:01 for every minute other than 0 and 30, the cache comes back equal and no fetch is made |
| Scenarios.NoCacheExample | tests/unit/coordinators/test_async_refresh_electricity_rates_data.py:136-168 | no cache: one fetch for 2023-07-13 to 2023-07-16, and the cache is exactly the fetched list |
| Scenarios.StaleCacheExample | tests/unit/coordinators/test_async_refresh_electricity_rates_data.py:171-228 | any cache at 10:30:01 (missing key, or an old entry) is replaced by the fetched list after one fetch |
| Scenarios.FailedFetchExample | tests/unit/coordinators/test_async_refresh_electricity_rates_data.py:279-306 | a fetch returning nothing keeps the cached entry verbatim |
| Scenarios.DispatchOverlapsSlotsFiveAndSix | tests/unit/coordinators/test_async_refresh_electricity_rates_data.py:244-248 | the 02:30-03:30 dispatch overlaps periods 5 and 6 of the day and no other, 4 and 7 only touching it |
| Scenarios.DispatchAdjustmentExample | tests/unit/coordinators/test_async_refresh_electricity_rates_data.py:260-274 | periods 5 and 6 get price 1 and the flag; the other 46 are unchanged and unflagged; the length is 48 |
| Scenarios.DispatchRefreshExample | tests/unit/coordinators/test_async_refresh_electricity_rates_data.py:231-276 | the refresh fetches once and stores the adjusted list under the MPAN |
| Scenarios.OffPeakExample | custom_components/octopus_energy/electricity/off_peak.py:65-69 | over four periods priced 1, 2, 3, 4, a sample is off peak exactly in the price-1 period |

## Left out

- Home Assistant entity plumbing (`unique_id`, `name`, `icon`, `extra_state_attributes`, `generate_entity_id`, base classes), logging and the async machinery: presentation and I/O only.
- The API client and its HTTP calls: the fetch is a function argument, and a failed or cancelled call is modelled as `None`.
- The bodies of `get_off_peak_cost` and `get_current_rate_information` are not part of this model. They are function arguments, and `Rates.LowestPrice` and `Rates.RateAt` are the assumed natural readings.
- The bodies of `get_active_tariff_code` and `async_refresh_electricity_rates_data` are not part of this model. Their behaviour comes from the test assertions, as described above.
- Reuse by coverage: the model never makes "the cached entry already spans the whole fetch window" a condition for reusing it. The test at tests/unit/coordinators/test_async_refresh_electricity_rates_data.py:103-133 reuses a one-day entry against a three-day window. So off the half hour, any cached entry is reused.
- Several meters per meter point: each meter point carries a single smart-meter flag and makes at most one fetch.
- A missing `dispatches` argument (`None`): the model always takes the two lists, possibly empty.
- Restored state typing: Home Assistant restores a string. The model restores an optional boolean.
- Presence of `is_intelligent_adjusted`: the tests check whether the key is present. The model carries one boolean, so a missing key and an explicit `False` are the same value.
- Prices are integers, not floats: only equality and minimum are used.
- Time zones and daylight saving: instants are integer seconds on one fixed-offset local clock.
- Gas rates: same shape, not covered.
- The tests' `create_rate_data` fixture is not part of this model. `Scenarios.HalfHourSlots` assumes it produces consecutive 30-minute periods cycling through the given prices.
- RatesRefresh.RefreshPoint: its own contract states only the bound of one fetch and the need for an active tariff. The full behaviour is stated by the lemmas that follow it.
- OffPeak.RatesFor: the coordinator's data is always a cache, since the refresh always returns one. A coordinator whose data is `None` is not modelled; off_peak.py:62 would raise `TypeError` on it.
- OffPeak.IsOn: its own contract states only that a read either leaves the sensor alone or stamps it `now`. The exact trigger and sample value are stated by the lemmas that follow it.

=== FILE: dispatch.dfy ===
/** Intelligent-tariff dispatch adjustment: every price period that overlaps
    a planned or completed dispatch is billed at the cheapest price of its
    rate list and flagged `is_intelligent_adjusted`. */
module Dispatches {
  import opened Time
  import opened Rates

  /** One dispatch `{start, end, source}`; the window is `[start, end)`. */
  datatype Dispatch = Dispatch(start: Instant, end: Instant, source: string)
  {
    /** The half-open window `[start, end)` contains `t`. */
    predicate Covers(t: Instant)
    {
      start <= t < end
    }
  }

  /** The `{"planned": [...], "completed": [...]}` argument. */
  datatype DispatchLists = DispatchLists(planned: seq<Dispatch>, completed: seq<Dispatch>)
  {
    /** Both buckets are treated alike: the adjustment sees their union. */
    function All(): seq<Dispatch>
    {
      planned + completed
    }
  }

  const NoDispatches: DispatchLists := DispatchLists([], [])

  /** The period and the dispatch share at least one instant: two half-open
      windows that merely touch do not overlap, and neither does an empty or
      inverted window. */
  predicate Overlaps(r: Rate, d: Dispatch)
  {
    r.validFrom < r.validTo && d.start < d.end && r.validFrom < d.end && d.start < r.validTo
  }

  /** `Overlaps` is exactly "some instant lies in both windows". */
  lemma OverlapsIffSharedInstant(r: Rate, d: Dispatch)
    ensures Overlaps(r, d) <==> exists t :: r.Covers(t) && d.Covers(t)
  {
    if Overlaps(r, d) {
      var t := if r.validFrom <= d.start then d.start else r.validFrom;
      assert r.Covers(t) && d.Covers(t);
    }
  }

  predicate InAnyDispatch(r: Rate, ds: seq<Dispatch>)
  {
    exists i :: 0 <= i < |ds| && Overlaps(r, ds[i])
  }

  /** The period re-billed at price `lo`, keeping its window. */
  function Reprice(r: Rate, lo: int): Rate
  {
    r.(valueIncVat := lo, isIntelligentAdjusted := true)
  }

  /** Re-price at `lo` every period that overlaps a dispatch. */
  function AdjustWith(rates: RateSet, lo: int, ds: seq<Dispatch>): (out: RateSet)
    ensures |out| == |rates|
    ensures forall i :: 0 <= i < |rates| && InAnyDispatch(rates[i], ds) ==> out[i] == Reprice(rates[i], lo)
    ensures forall i :: 0 <= i < |rates| && !InAnyDispatch(rates[i], ds) ==> out[i] == rates[i]
  {
    if |rates| == 0 then []
    else
      var head := if InAnyDispatch(rates[0], ds) then Reprice(rates[0], lo) else rates[0];
      var tail := AdjustWith(rates[1..], lo, ds);
      assert forall i :: 1 <= i < |rates| ==> rates[i] == rates[1..][i - 1];
      [head] + tail
  }

  /** The dispatch adjustment of one metering point's rate list: the list
      keeps its length and every window; an overlapped period takes the
      list's lowest price and the adjusted flag; any other period is left
      exactly as it was. */
  function AdjustIntelligentRates(rates: RateSet, dispatches: DispatchLists): (out: RateSet)
    ensures |out| == |rates|
    ensures forall i :: 0 <= i < |rates| ==>
      out[i].validFrom == rates[i].validFrom && out[i].validTo == rates[i].validTo
    ensures forall i :: 0 <= i < |rates| && !InAnyDispatch(rates[i], dispatches.All()) ==> out[i] == rates[i]
    ensures forall i :: 0 <= i < |rates| && InAnyDispatch(rates[i], dispatches.All()) ==>
      LowestPrice(rates).Some? && out[i].valueIncVat == LowestPrice(rates).value && out[i].isIntelligentAdjusted
  {
    match LowestPrice(rates)
    case None => rates
    case Some(lo) => AdjustWith(rates, lo, dispatches.All())
  }

  /** With no dispatches nothing changes. */
  lemma NoDispatchesLeavesRatesUnchanged(rates: RateSet)
    ensures AdjustIntelligentRates(rates, NoDispatches) == rates
  {
    var out := AdjustIntelligentRates(rates, NoDispatches);
    assert forall i :: 0 <= i < |rates| ==> !InAnyDispatch(rates[i], NoDispatches.All());
    assert forall i :: 0 <= i < |rates| ==> out[i] == rates[i];
  }

  /** Adjustment never raises a price. */
  lemma AdjustNeverRaisesPrice(rates: RateSet, dispatches: DispatchLists, i: int)
    requires 0 <= i < |rates|
    ensures AdjustIntelligentRates(rates, dispatches)[i].valueIncVat <= rates[i].valueIncVat
  {
    if InAnyDispatch(rates[i], dispatches.All()) {
      var lo := LowestPrice(rates);
      assert lo.value <= rates[i].valueIncVat;
    }
  }

  /** On a list with no adjusted flags, a period is flagged after adjustment
      exactly when it overlaps some dispatch. */
  lemma AdjustedFlagIffOverlap(rates: RateSet, dispatches: DispatchLists, i: int)
    requires 0 <= i < |rates|
    requires !rates[i].isIntelligentAdjusted
    ensures AdjustIntelligentRates(rates, dispatches)[i].isIntelligentAdjusted
      <==> InAnyDispatch(rates[i], dispatches.All())
  {
  }

  /** The adjustment never clears a flag: a period adjusted for a dispatch
      that is no longer reported keeps its lowered price and its flag. */
  lemma AdjustedPeriodStaysAdjusted(rates: RateSet, dispatches: DispatchLists, i: int)
    requires 0 <= i < |rates|
    requires rates[i].isIntelligentAdjusted
    requires !InAnyDispatch(rates[i], dispatches.All())
    ensures AdjustIntelligentRates(rates, dispatches)[i] == rates[i]
    ensures AdjustIntelligentRates(rates, dispatches)[i].isIntelligentAdjusted
  {
  }

  /** The adjustment keeps the lowest price of the list. */
  lemma AdjustKeepsLowestPrice(rates: RateSet, dispatches: DispatchLists)
    ensures LowestPrice(AdjustIntelligentRates(rates, dispatches)) == LowestPrice(rates)
  {
    var out := AdjustIntelligentRates(rates, dispatches);
    if |rates| > 0 {
      var lo := LowestPrice(rates).value;
      var k :| 0 <= k < |rates| && rates[k].valueIncVat == lo;
      assert out[k].valueIncVat == lo;
      forall i | 0 <= i < |out|
        ensures lo <= out[i].valueIncVat
      {
        assert lo <= rates[i].valueIncVat;
      }
      LowestPriceUnique(out, lo, k);
    }
  }

  /** Adjusting twice with the same dispatches is the same as adjusting once:
      a refresh that re-adjusts a cached, already adjusted list does not drift. */
  lemma AdjustIdempotent(rates: RateSet, dispatches: DispatchLists)
    ensures AdjustIntelligentRates(AdjustIntelligentRates(rates, dispatches), dispatches)
      == AdjustIntelligentRates(rates, dispatches)
  {
    var once := AdjustIntelligentRates(rates, dispatches);
    var twice := AdjustIntelligentRates(once, dispatches);
    AdjustKeepsLowestPrice(rates, dispatches);
    forall i | 0 <= i < |rates|
      ensures twice[i] == once[i]
    {
      var ds := dispatches.All();
      assert InAnyDispatch(once[i], ds) <==> InAnyDispatch(rates[i], ds) by {
        forall j | 0 <= j < |ds|
          ensures Overlaps(once[i], ds[j]) <==> Overlaps(rates[i], ds[j])
        {
        }
      }
    }
  }

  /** Which bucket a dispatch comes from does not matter. */
  lemma PlannedAndCompletedAlike(rates: RateSet, planned: seq<Dispatch>, completed: seq<Dispatch>)
    ensures AdjustIntelligentRates(rates, DispatchLists(planned, completed))
      == AdjustIntelligentRates(rates, DispatchLists(completed, planned))
  {
    var a := DispatchLists(planned, completed);
    var b := DispatchLists(completed, planned);
    var outA := AdjustIntelligentRates(rates, a);
    var outB := AdjustIntelligentRates(rates, b);
    forall i | 0 <= i < |rates|
      ensures outA[i] == outB[i]
    {
      assert InAnyDispatch(rates[i], a.All()) <==> InAnyDispatch(rates[i], b.All()) by {
        if InAnyDispatch(rates[i], a.All()) {
          var j :| 0 <= j < |a.All()| && Overlaps(rates[i], a.All()[j]);
          if j < |planned| {
            assert a.All()[j] == b.All()[|completed| + j];
          } else {
            assert a.All()[j] == b.All()[j - |planned|];
          }
        }
        if InAnyDispatch(rates[i], b.All()) {
          var j :| 0 <= j < |b.All()| && Overlaps(rates[i], b.All()[j]);
          if j < |completed| {
            assert b.All()[j] == a.All()[|planned| + j];
          } else {
            assert b.All()[j] == a.All()[j - |completed|];
          }
        }
      }
    }
  }

  /** Consecutive periods: each ends where the next begins and every window
      is non-empty. */
  predicate Contiguous(rates: RateSet)
  {
    (forall i :: 0 <= i < |rates| ==> rates[i].validFrom < rates[i].validTo)
    && (forall i :: 0 < i < |rates| ==> rates[i - 1].validTo == rates[i].validFrom)
  }

  /** The adjustment keeps a contiguous list contiguous. */
  lemma AdjustKeepsContiguity(rates: RateSet, dispatches: DispatchLists)
    requires Contiguous(rates)
    ensures Contiguous(AdjustIntelligentRates(rates, dispatches))
  {
    var out := AdjustIntelligentRates(rates, dispatches);
    forall i | 0 < i < |rates|
      ensures out[i - 1].validTo == out[i].validFrom
    {
      assert out[i - 1].validTo == rates[i - 1].validTo;
    }
  }
}

=== FILE: offpeak.dfy ===
/** The off-peak binary sensor (`OctopusEnergyElectricityOffPeak`): a
    sample-and-hold of "the current rate is the cheapest rate", recomputed
    only when the last sample is missing or more than half an hour old, or on
    a :00/:30 minute. */
module OffPeak {
  import opened Optional
  import opened Time
  import opened Rates
  import opened Dispatches
  import opened RatesRefresh

  /** The sensor's own state: `_state` (`None` until restored or first
      computed) and `_last_updated`. */
  datatype OffPeakSensor = OffPeakSensor(state: Option<bool>, lastUpdated: Option<Instant>)

  /** The sensor as constructed, before any restore or sample. */
  const Fresh: OffPeakSensor := OffPeakSensor(None, None)

  /** `get_off_peak_cost(rates)`: the off-peak price of a rate list, if any. */
  type OffPeakCost = RateSet -> Option<int>

  /** `get_current_rate_information(rates, now)["current_rate"]`: the period
      in force at an instant, if any. */
  type CurrentRate = (RateSet, Instant) -> Option<Rate>

  /** The rate list the sensor reads: the coordinator's entry for the
      sensor's MPAN, or nothing when there is no coordinator or its data has
      no entry for the MPAN. */
  function RatesFor(coordinator: Option<RateCache>, mpan: string): (rates: Option<RateSet>)
  {
    if coordinator.Some? && mpan in coordinator.value then Some(coordinator.value[mpan]) else None
  }

  /** The sensor reads what the refresh stored for its meter point: for a
      meter point whose MPAN no other point of the account shares, the rates
      the sensor sees after a refresh are that point's own refresh outcome. */
  lemma SensorReadsRefreshedEntry(ctx: Context, points: seq<MeterPoint>, j: int)
    requires 0 <= j < |points|
    requires forall k :: 0 <= k < |points| && k != j ==> points[k].mpan != points[j].mpan
    ensures RatesFor(Some(RefreshElectricityRates(ctx.now, ctx.fetch, Some(AccountInfo(points)), ctx.existing, ctx.dispatches).rates),
                     points[j].mpan)
      == RefreshPoint(ctx, points[j]).entry
  {
    CacheEntryOfPoint(ctx, points, j);
  }

  /** Without account information the sensor goes on reading the entry the
      coordinator held before the refresh. */
  lemma SensorReadsExistingWithoutAccount(now: Instant, fetch: Fetcher, existing: RateCache,
                                          dispatches: DispatchLists, mpan: string)
    ensures RatesFor(Some(RefreshElectricityRates(now, fetch, None, Some(existing), dispatches).rates), mpan)
      == RatesFor(Some(existing), mpan)
  {
  }

  /** The sample-and-hold trigger: no sample yet, a sample strictly older
      than half an hour, or a :00/:30 minute. */
  predicate SampleDue(lastUpdated: Option<Instant>, now: Instant)
  {
    lastUpdated.None? || lastUpdated.value < now - HalfHour || OnHalfHour(now)
  }

  /** One fresh sample: off peak when both the off-peak price and the current
      period exist and the current period's price is the off-peak price. */
  predicate OffPeakSample(rates: RateSet, now: Instant, offPeakCost: OffPeakCost, currentRate: CurrentRate)
  {
    var cost := offPeakCost(rates);
    var current := currentRate(rates, now);
    cost.Some? && current.Some? && cost.value == current.value.valueIncVat
  }

  /** One read of `is_on` at `now`; the value read is the new sensor's
      `state`. With rates available and a sample due, the sensor takes a
      fresh sample stamped `now`; otherwise it is left exactly as it was. */
  function IsOn(sensor: OffPeakSensor, now: Instant, rates: Option<RateSet>,
                offPeakCost: OffPeakCost, currentRate: CurrentRate): (next: OffPeakSensor)
    ensures next == sensor || (rates.Some? && next.lastUpdated == Some(now))
    ensures next.state.Some? || sensor.state.None?
  {
    if rates.Some? && SampleDue(sensor.lastUpdated, now) then
      OffPeakSensor(Some(OffPeakSample(rates.value, now, offPeakCost, currentRate)), Some(now))
    else
      sensor
  }

  /** `async_added_to_hass`: a restored value replaces the state; otherwise
      a missing state becomes `false`. The sample time is untouched. */
  function Restore(sensor: OffPeakSensor, restored: Option<bool>): (next: OffPeakSensor)
    ensures next.state.Some?
    ensures restored.Some? ==> next.state == restored
    ensures restored.None? ==> next.state == Some(sensor.state.GetOr(false))
    ensures next.lastUpdated == sensor.lastUpdated
  {
    var state := if restored.Some? then restored else sensor.state;
    OffPeakSensor(if state.None? then Some(false) else state, sensor.lastUpdated)
  }

  /** A newly constructed sensor with nothing to restore reads `false`
      and has never sampled. */
  lemma FreshSensorRestoresOff()
    ensures Restore(Fresh, None) == OffPeakSensor(Some(false), None)
  {
  }

  /** A sensor that has never sampled takes a sample as soon as rates are
      available. */
  lemma FirstReadSamples(sensor: OffPeakSensor, now: Instant, rates: RateSet,
                         offPeakCost: OffPeakCost, currentRate: CurrentRate)
    requires sensor.lastUpdated.None?
    ensures IsOn(sensor, now, Some(rates), offPeakCost, currentRate)
      == OffPeakSensor(Some(OffPeakSample(rates, now, offPeakCost, currentRate)), Some(now))
  {
  }

  /** A sample exactly half an hour old is not stale: off the :00/:30 minute
      the read leaves the sensor unchanged. */
  lemma HalfHourOldSampleHeld(sensor: OffPeakSensor, now: Instant, rates: Option<RateSet>,
                              offPeakCost: OffPeakCost, currentRate: CurrentRate)
    requires sensor.lastUpdated == Some(now - HalfHour)
    requires !OnHalfHour(now)
    ensures IsOn(sensor, now, rates, offPeakCost, currentRate) == sensor
  {
  }

  /** A sample more than half an hour old is replaced when rates are available. */
  lemma StaleSampleRefreshed(sensor: OffPeakSensor, now: Instant, rates: RateSet,
                             offPeakCost: OffPeakCost, currentRate: CurrentRate)
    requires sensor.lastUpdated.Some? && sensor.lastUpdated.value < now - HalfHour
    ensures IsOn(sensor, now, Some(rates), offPeakCost, currentRate)
      == OffPeakSensor(Some(OffPeakSample(rates, now, offPeakCost, currentRate)), Some(now))
  {
  }

  /** On a :00/:30 minute a sample is always taken when rates are available,
      however recent the last one is. */
  lemma HalfHourMinuteSamples(sensor: OffPeakSensor, now: Instant, rates: RateSet,
                              offPeakCost: OffPeakCost, currentRate: CurrentRate)
    requires OnHalfHour(now)
    ensures IsOn(sensor, now, Some(rates), offPeakCost, currentRate)
      == OffPeakSensor(Some(OffPeakSample(rates, now, offPeakCost, currentRate)), Some(now))
  {
  }

  /** Without rates for its MPAN the sensor neither samples nor moves its
      sample time, so the next read with rates still samples when due. */
  lemma NoRatesHolds(sensor: OffPeakSensor, now: Instant, offPeakCost: OffPeakCost, currentRate: CurrentRate)
    ensures IsOn(sensor, now, None, offPeakCost, currentRate) == sensor
  {
  }

  /** Sample-and-hold across reads: after a sample at `t`, every read within
      the next half hour that is not on a :00/:30 minute returns the held
      sample, whatever the rates are by then. */
  lemma HeldWithinHalfHour(sensor: OffPeakSensor, t: Instant, rates: RateSet, later: Instant, laterRates: Option<RateSet>,
                           offPeakCost: OffPeakCost, currentRate: CurrentRate)
    requires SampleDue(sensor.lastUpdated, t)
    requires t <= later <= t + HalfHour
    requires !OnHalfHour(later)
    ensures IsOn(IsOn(sensor, t, Some(rates), offPeakCost, currentRate), later, laterRates, offPeakCost, currentRate)
      == IsOn(sensor, t, Some(rates), offPeakCost, currentRate)
  {
  }

  /** One read of `is_on`: when it happens and the rates then available. */
  datatype Poll = Poll(at: Instant, rates: Option<RateSet>)

  /** A sequence of reads of `is_on`, in order. */
  function ReadAll(sensor: OffPeakSensor, polls: seq<Poll>,
                   offPeakCost: OffPeakCost, currentRate: CurrentRate): OffPeakSensor
    decreases |polls|
  {
    if |polls| == 0 then sensor
    else ReadAll(IsOn(sensor, polls[0].at, polls[0].rates, offPeakCost, currentRate), polls[1..], offPeakCost, currentRate)
  }

  /** A defined state stays defined through any sequence of reads. */
  lemma {:induction false} StateStaysDefined(sensor: OffPeakSensor, polls: seq<Poll>,
                                            offPeakCost: OffPeakCost, currentRate: CurrentRate)
    requires sensor.state.Some?
    ensures ReadAll(sensor, polls, offPeakCost, currentRate).state.Some?
    decreases |polls|
  {
    if |polls| > 0 {
      StateStaysDefined(IsOn(sensor, polls[0].at, polls[0].rates, offPeakCost, currentRate), polls[1..], offPeakCost, currentRate);
    }
  }

  /** Once restored, the sensor's state is never `None` again, whatever
      reads follow. */
  lemma RestoredStateStaysDefined(sensor: OffPeakSensor, restored: Option<bool>, polls: seq<Poll>,
                                  offPeakCost: OffPeakCost, currentRate: CurrentRate)
    ensures ReadAll(Restore(sensor, restored), polls, offPeakCost, currentRate).state.Some?
  {
    StateStaysDefined(Restore(sensor, restored), polls, offPeakCost, currentRate);
  }

  /** With the natural readings of the two helpers (the lowest price of the
      list, and the first period covering `now`), a sample says "off peak"
      exactly when some period covers `now` and the first such period's price
      is no higher than any price in the list. */
  lemma NaturalSampleIsCheapestNow(rates: RateSet, now: Instant)
    ensures OffPeakSample(rates, now, LowestPrice, RateAt) <==>
      RateAt(rates, now).Some?
      && forall i :: 0 <= i < |rates| ==> RateAt(rates, now).value.valueIncVat <= rates[i].valueIncVat
  {
    var current := RateAt(rates, now);
    if current.Some? && forall i :: 0 <= i < |rates| ==> current.value.valueIncVat <= rates[i].valueIncVat {
      var k :| 0 <= k < |rates| && rates[k] == current.value;
      LowestPriceUnique(rates, current.value.valueIncVat, k);
    }
  }
}

=== FILE: option.dfy ===
/** The optional value used wherever the Python code returns or stores `None`. */
module Optional {

  datatype Option<+T> = None | Some(value: T) {

    /** The value, or `fallback` when there is none. */
    function GetOr(fallback: T): T
    {
      match this
      case Some(v) => v
      case None => fallback
    }
  }
}

=== FILE: rates.dfy ===
/** Half-hourly price periods and the two read-only queries the off-peak
    sensor makes of a metering point's rate list: the lowest price in the
    list, and the period that covers a given instant. */
module Rates {
  import opened Optional
  import opened Time

  /** One price period `{valid_from, valid_to, value_inc_vat,
      is_intelligent_adjusted}`. Prices are whole numbers: the model only
      compares them and takes their minimum. An absent
      `is_intelligent_adjusted` key is `false`. */
  datatype Rate = Rate(validFrom: Instant, validTo: Instant, valueIncVat: int, isIntelligentAdjusted: bool)
  {
    /** The half-open window `[validFrom, validTo)` contains `t`. */
    predicate Covers(t: Instant)
    {
      validFrom <= t < validTo
    }
  }

  /** The rate list of one metering point, in the order it was fetched. */
  type RateSet = seq<Rate>

  /** The lowest `valueIncVat` in the list, `None` for an empty list.
      This is the natural reading of `get_off_peak_cost`. */
  function LowestPrice(rates: RateSet): (lo: Option<int>)
    ensures lo.None? <==> |rates| == 0
    ensures lo.Some? ==> exists i :: 0 <= i < |rates| && rates[i].valueIncVat == lo.value
    ensures lo.Some? ==> forall i :: 0 <= i < |rates| ==> lo.value <= rates[i].valueIncVat
  {
    if |rates| == 0 then None
    else
      match LowestPrice(rates[1..])
      case None => Some(rates[0].valueIncVat)
      case Some(rest) =>
        assert forall i :: 1 <= i < |rates| ==> rates[i] == rates[1..][i - 1];
        Some(if rates[0].valueIncVat <= rest then rates[0].valueIncVat else rest)
  }

  /** The first period in the list whose window covers `t`, `None` if no
      period does. This is the natural reading of the `current_rate` that
      `get_current_rate_information` reports. */
  function RateAt(rates: RateSet, t: Instant): (r: Option<Rate>)
    ensures r.None? <==> forall i :: 0 <= i < |rates| ==> !rates[i].Covers(t)
    ensures r.Some? ==> r.value.Covers(t)
    ensures r.Some? ==>
      exists i :: 0 <= i < |rates| && rates[i] == r.value && (forall j :: 0 <= j < i ==> !rates[j].Covers(t))
  {
    if |rates| == 0 then None
    else if rates[0].Covers(t) then Some(rates[0])
    else
      var r := RateAt(rates[1..], t);
      assert forall i :: 1 <= i < |rates| ==> rates[i] == rates[1..][i - 1];
      if r.Some? then
        var k :| 0 <= k < |rates[1..]| && rates[1..][k] == r.value && (forall j :: 0 <= j < k ==> !rates[1..][j].Covers(t));
        assert rates[k + 1] == r.value;
        r
      else r
  }

  /** Any price that occurs in the list and bounds every price from below is
      the lowest price. */
  lemma LowestPriceUnique(rates: RateSet, v: int, k: int)
    requires 0 <= k < |rates| && rates[k].valueIncVat == v
    requires forall i :: 0 <= i < |rates| ==> v <= rates[i].valueIncVat
    ensures LowestPrice(rates) == Some(v)
  {
    var lo := LowestPrice(rates);
    var i :| 0 <= i < |rates| && rates[i].valueIncVat == lo.value;
    assert lo.value <= rates[k].valueIncVat;
  }

  /** When exactly one period covers `t`, it is the period in force. */
  lemma SoleCoveringRate(rates: RateSet, t: Instant, k: int)
    requires 0 <= k < |rates| && rates[k].Covers(t)
    requires forall j :: 0 <= j < |rates| && j != k ==> !rates[j].Covers(t)
    ensures RateAt(rates, t) == Some(rates[k])
  {
  }
}

=== FILE: refresh.dfy ===
/** The electricity rates coordinator's refresh
    (`async_refresh_electricity_rates_data`): for every metering point of the
    account, decide whether the cached rate list can be reused or must be
    fetched again, fall back to the cached list when a fetch returns nothing,
    apply the dispatch adjustment, and assemble the new cache. */
module RatesRefresh {
  import opened Optional
  import opened Time
  import opened Rates
  import opened Tariffs
  import opened Dispatches

  /** One electricity meter point of the account information. */
  datatype MeterPoint = MeterPoint(mpan: string, isSmartMeter: bool, agreements: seq<Agreement>)

  /** The account information: its `electricity_meter_points`. */
  datatype AccountInfo = AccountInfo(electricityMeterPoints: seq<MeterPoint>)

  /** The arguments of one call to the API client's rate fetch. */
  datatype FetchRequest = FetchRequest(tariffCode: string, isSmartMeter: bool, periodFrom: Instant, periodTo: Instant)

  /** The API client's rate fetch: `None` stands for "returned nothing", and
      also for a failed or cancelled call. */
  type Fetcher = FetchRequest -> Option<RateSet>

  /** The coordinator's data: rate list per MPAN. */
  type RateCache = map<string, RateSet>

  /** Everything a refresh reads apart from the account's meter points. */
  datatype Context = Context(now: Instant, fetch: Fetcher, existing: Option<RateCache>, dispatches: DispatchLists)
  {
    /** The cached rate list of `mpan`, if there is a cache holding one. */
    function Previous(mpan: string): Option<RateSet>
    {
      if existing.Some? && mpan in existing.value then Some(existing.value[mpan]) else None
    }

    /** The only request a refresh ever makes for a tariff: the rolling
        three-day window around `now`. */
    function RequestFor(code: string, isSmartMeter: bool): FetchRequest
    {
      FetchRequest(code, isSmartMeter, WindowStart(now), WindowEnd(now))
    }
  }

  /** What the refresh produces for one meter point: its new cache entry, if
      any, and the fetches it made (none or one). */
  datatype PointOutcome = PointOutcome(entry: Option<RateSet>, requests: seq<FetchRequest>)

  /** The cached entry is reused only off the half hour; a missing entry or
      a :00/:30 minute forces a fetch. */
  predicate MustFetch(now: Instant, previous: Option<RateSet>)
  {
    previous.None? || OnHalfHour(now)
  }

  /** The refresh of one meter point. */
  function RefreshPoint(ctx: Context, point: MeterPoint): (o: PointOutcome)
    ensures |o.requests| <= 1
    ensures o.entry.Some? ==> ActiveTariffCode(ctx.now, point.agreements).Some?
  {
    match ActiveTariffCode(ctx.now, point.agreements)
    case None => PointOutcome(None, [])
    case Some(code) =>
      var previous := ctx.Previous(point.mpan);
      if !MustFetch(ctx.now, previous) then
        PointOutcome(Some(AdjustIntelligentRates(previous.value, ctx.dispatches)), [])
      else
        var request := ctx.RequestFor(code, point.isSmartMeter);
        var fetched := ctx.fetch(request);
        var base := if fetched.Some? then fetched else previous;
        var entry := if base.Some? then Some(AdjustIntelligentRates(base.value, ctx.dispatches)) else None;
        PointOutcome(entry, [request])
  }

  /** The per-point refresh under one context, as a function value. */
  function RefreshPointIn(ctx: Context): MeterPoint -> PointOutcome
  {
    point => RefreshPoint(ctx, point)
  }

  /** No later meter point of the list overwrites the entry of `points[j]`:
      every later point with the same MPAN produces no entry. */
  predicate LastEntryFor(points: seq<MeterPoint>, outcome: MeterPoint -> PointOutcome, j: int)
    requires 0 <= j < |points|
  {
    forall k :: j < k < |points| && points[k].mpan == points[j].mpan ==> outcome(points[k]).entry.None?
  }

  /** The result of refreshing a list of meter points. */
  datatype Refreshed = Refreshed(cache: RateCache, requests: seq<FetchRequest>)

  /** The loop over the account's meter points, in order, given what each
      point produces: an entry is stored under the point's MPAN, so a later
      point with the same MPAN and an entry overwrites an earlier one, and the
      fetches of the points are collected in order. */
  function Assemble(points: seq<MeterPoint>, outcome: MeterPoint -> PointOutcome): Refreshed
    decreases |points|
  {
    if |points| == 0 then Refreshed(map[], [])
    else
      var n := |points| - 1;
      var before := Assemble(points[..n], outcome);
      var o := outcome(points[n]);
      var cache := if o.entry.Some? then before.cache[points[n].mpan := o.entry.value] else before.cache;
      Refreshed(cache, before.requests + o.requests)
  }

  /** The assembled cache holds an MPAN exactly when some meter point with
      that MPAN produced an entry. */
  lemma {:induction false} AssembleKeys(points: seq<MeterPoint>, outcome: MeterPoint -> PointOutcome, mpan: string)
    ensures mpan in Assemble(points, outcome).cache <==>
      exists j :: 0 <= j < |points| && points[j].mpan == mpan && outcome(points[j]).entry.Some?
    decreases |points|
  {
    if |points| > 0 {
      var n := |points| - 1;
      AssembleKeys(points[..n], outcome, mpan);
      assert forall j :: 0 <= j < n ==> points[..n][j] == points[j];
    }
  }

  /** The assembled cache holds, for an MPAN, the entry of the last meter
      point with that MPAN that produced one. */
  lemma {:induction false} AssembleEntry(points: seq<MeterPoint>, outcome: MeterPoint -> PointOutcome, j: int)
    requires 0 <= j < |points|
    requires outcome(points[j]).entry.Some?
    requires LastEntryFor(points, outcome, j)
    ensures points[j].mpan in Assemble(points, outcome).cache
    ensures Assemble(points, outcome).cache[points[j].mpan] == outcome(points[j]).entry.value
    decreases |points|
  {
    var n := |points| - 1;
    if j < n {
      assert points[..n][j] == points[j];
      assert LastEntryFor(points[..n], outcome, j) by {
        forall k | j < k < n && points[..n][k].mpan == points[..n][j].mpan
          ensures outcome(points[..n][k]).entry.None?
        {
          assert points[..n][k] == points[k];
        }
      }
      AssembleEntry(points[..n], outcome, j);
    }
  }

  /** The fetches of the assembled refresh are exactly those of its meter points. */
  lemma {:induction false} AssembleRequests(points: seq<MeterPoint>, outcome: MeterPoint -> PointOutcome, q: FetchRequest)
    ensures q in Assemble(points, outcome).requests <==>
      exists j :: 0 <= j < |points| && q in outcome(points[j]).requests
    decreases |points|
  {
    if |points| > 0 {
      var n := |points| - 1;
      AssembleRequests(points[..n], outcome, q);
      assert forall j :: 0 <= j < n ==> points[..n][j] == points[j];
    }
  }

  /** The loop of the refresh over the account's meter points. */
  function RefreshPoints(ctx: Context, points: seq<MeterPoint>): Refreshed
  {
    Assemble(points, RefreshPointIn(ctx))
  }

  /** A meter point whose MPAN no other point of the account shares gets, in
      the new cache, exactly what its own refresh produced: its entry if it
      produced one, and no key otherwise. */
  lemma CacheEntryOfPoint(ctx: Context, points: seq<MeterPoint>, j: int)
    requires 0 <= j < |points|
    requires forall k :: 0 <= k < |points| && k != j ==> points[k].mpan != points[j].mpan
    ensures RefreshPoint(ctx, points[j]).entry.Some? ==>
      points[j].mpan in RefreshPoints(ctx, points).cache
      && RefreshPoints(ctx, points).cache[points[j].mpan] == RefreshPoint(ctx, points[j]).entry.value
    ensures RefreshPoint(ctx, points[j]).entry.None? ==> points[j].mpan !in RefreshPoints(ctx, points).cache
  {
    AssembleKeys(points, RefreshPointIn(ctx), points[j].mpan);
    if RefreshPoint(ctx, points[j]).entry.Some? {
      AssembleEntry(points, RefreshPointIn(ctx), j);
    }
  }

  /** Some meter point of `points` carries `mpan` and has an active tariff
      at `now`. */
  predicate HasActivePoint(points: seq<MeterPoint>, now: Instant, mpan: string)
  {
    exists j :: 0 <= j < |points| && points[j].mpan == mpan && ActiveTariffCode(now, points[j].agreements).Some?
  }

  /** The result of `async_refresh_electricity_rates_data`: the new
      coordinator data and the fetches made to produce it. */
  datatype RefreshResult = RefreshResult(rates: RateCache, requests: seq<FetchRequest>)

  /** The whole refresh. Without account information the existing cache is
      handed back as it is (an empty one when there is none) and nothing is
      fetched; with it, every MPAN of the new cache belongs to a meter point
      of the account that has an active tariff. */
  function RefreshElectricityRates(now: Instant, fetch: Fetcher, account: Option<AccountInfo>,
                                   existing: Option<RateCache>, dispatches: DispatchLists): (r: RefreshResult)
    ensures account.None? ==> r.requests == []
    ensures account.None? && existing.Some? ==> r.rates == existing.value
    ensures account.None? && existing.None? ==> r.rates == map[]
    ensures account.Some? ==> forall mpan :: mpan in r.rates ==>
      HasActivePoint(account.value.electricityMeterPoints, now, mpan)
  {
    match account
    case None => RefreshResult(existing.GetOr(map[]), [])
    case Some(info) =>
      var ctx := Context(now, fetch, existing, dispatches);
      var points := info.electricityMeterPoints;
      var done := RefreshPoints(ctx, points);
      assert forall mpan :: mpan in done.cache ==> HasActivePoint(points, now, mpan) by {
        forall mpan | mpan in done.cache
          ensures HasActivePoint(points, now, mpan)
        {
          AssembleKeys(points, RefreshPointIn(ctx), mpan);
          var j :| 0 <= j < |points| && points[j].mpan == mpan && RefreshPointIn(ctx)(points[j]).entry.Some?;
          assert RefreshPoint(ctx, points[j]).entry.Some?;
        }
      }
      RefreshResult(done.cache, done.requests)
  }

  /** A meter point without an active tariff produces no entry and no
      fetch, whatever the cache held for it. */
  lemma InactivePointDropped(ctx: Context, point: MeterPoint)
    requires ActiveTariffCode(ctx.now, point.agreements).None?
    ensures RefreshPoint(ctx, point) == PointOutcome(None, [])
  {
  }

  /** An MPAN none of whose meter points has an active tariff is absent
      from the new cache, even when the existing cache held it. */
  lemma InactiveMpanAbsent(ctx: Context, points: seq<MeterPoint>, mpan: string)
    requires forall j :: 0 <= j < |points| && points[j].mpan == mpan ==>
      ActiveTariffCode(ctx.now, points[j].agreements).None?
    ensures mpan !in RefreshPoints(ctx, points).cache
  {
    AssembleKeys(points, RefreshPointIn(ctx), mpan);
  }

  /** Off the half hour, a cached entry is reused without fetching, and is
      returned unchanged when there are no dispatches. */
  lemma CachedEntryReusedOffHalfHour(ctx: Context, point: MeterPoint)
    requires ActiveTariffCode(ctx.now, point.agreements).Some?
    requires ctx.Previous(point.mpan).Some?
    requires !OnHalfHour(ctx.now)
    ensures RefreshPoint(ctx, point).requests == []
    ensures RefreshPoint(ctx, point).entry == Some(AdjustIntelligentRates(ctx.Previous(point.mpan).value, ctx.dispatches))
    ensures ctx.dispatches == NoDispatches ==> RefreshPoint(ctx, point).entry == ctx.Previous(point.mpan)
  {
    NoDispatchesLeavesRatesUnchanged(ctx.Previous(point.mpan).value);
  }

  /** With no cached entry, or on a :00/:30 minute, an active meter point
      makes exactly one fetch, for its tariff and the three-day window
      `[StartOfDay(now - 1 day), StartOfDay(now + 2 days))`; whatever the fetch
      returns becomes the entry, adjusted for dispatches. */
  lemma FetchesWindowWhenStale(ctx: Context, point: MeterPoint)
    requires ActiveTariffCode(ctx.now, point.agreements).Some?
    requires MustFetch(ctx.now, ctx.Previous(point.mpan))
    ensures RefreshPoint(ctx, point).requests == [FetchRequest(ActiveTariffCode(ctx.now, point.agreements).value,
      point.isSmartMeter, StartOfDay(ctx.now - Day), StartOfDay(ctx.now + 2 * Day))]
    ensures ctx.fetch(RefreshPoint(ctx, point).requests[0]).Some? ==>
      RefreshPoint(ctx, point).entry == Some(AdjustIntelligentRates(ctx.fetch(RefreshPoint(ctx, point).requests[0]).value, ctx.dispatches))
    ensures ctx.fetch(RefreshPoint(ctx, point).requests[0]).Some? && ctx.dispatches == NoDispatches ==>
      RefreshPoint(ctx, point).entry == ctx.fetch(RefreshPoint(ctx, point).requests[0])
  {
    var request := RefreshPoint(ctx, point).requests[0];
    if ctx.fetch(request).Some? {
      NoDispatchesLeavesRatesUnchanged(ctx.fetch(request).value);
    }
  }

  /** A fetch that returns nothing keeps the cached entry (re-adjusted for
      the current dispatches, so verbatim when there are none); with no
      cached entry the meter point drops out of the cache. */
  lemma FailedFetchKeepsPrevious(ctx: Context, point: MeterPoint)
    requires ActiveTariffCode(ctx.now, point.agreements).Some?
    requires MustFetch(ctx.now, ctx.Previous(point.mpan))
    requires ctx.fetch(ctx.RequestFor(ActiveTariffCode(ctx.now, point.agreements).value, point.isSmartMeter)).None?
    ensures ctx.Previous(point.mpan).None? ==> RefreshPoint(ctx, point).entry.None?
    ensures ctx.Previous(point.mpan).Some? ==>
      RefreshPoint(ctx, point).entry == Some(AdjustIntelligentRates(ctx.Previous(point.mpan).value, ctx.dispatches))
    ensures ctx.dispatches == NoDispatches ==> RefreshPoint(ctx, point).entry == ctx.Previous(point.mpan)
  {
    if ctx.Previous(point.mpan).Some? {
      NoDispatchesLeavesRatesUnchanged(ctx.Previous(point.mpan).value);
    }
  }

  /** A meter point makes a fetch exactly when it has an active tariff and
      either no cached entry or `now` is on a :00/:30 minute. */
  lemma FetchIffStale(ctx: Context, point: MeterPoint)
    ensures RefreshPoint(ctx, point).requests != [] <==>
      ActiveTariffCode(ctx.now, point.agreements).Some? && MustFetch(ctx.now, ctx.Previous(point.mpan))
  {
  }

  /** Every fetch of a refresh asks for the same three-day window around `now`. */
  lemma AllFetchesUseWindow(ctx: Context, points: seq<MeterPoint>)
    ensures forall q :: q in RefreshPoints(ctx, points).requests ==>
      q.periodFrom == WindowStart(ctx.now) && q.periodTo == WindowEnd(ctx.now)
      && q.periodTo - q.periodFrom == 3 * Day
  {
    FetchWindowIsThreeDays(ctx.now);
    forall q | q in RefreshPoints(ctx, points).requests
      ensures q.periodFrom == WindowStart(ctx.now) && q.periodTo == WindowEnd(ctx.now)
    {
      AssembleRequests(points, RefreshPointIn(ctx), q);
    }
  }

  /** A refresh off the half hour in which every active meter point already
      has a cached entry fetches nothing. */
  lemma NoFetchOffHalfHourWhenCached(ctx: Context, points: seq<MeterPoint>)
    requires !OnHalfHour(ctx.now)
    requires forall j :: 0 <= j < |points| && ActiveTariffCode(ctx.now, points[j].agreements).Some? ==>
      ctx.Previous(points[j].mpan).Some?
    ensures RefreshPoints(ctx, points).requests == []
  {
    var r := RefreshPoints(ctx, points);
    if r.requests != [] {
      AssembleRequests(points, RefreshPointIn(ctx), r.requests[0]);
      assert false;
    }
  }

  /** Refreshing the refreshed cache again at any later instant that is off
      the half hour, with the tariff still active and the same dispatches,
      reproduces the entry without a fetch: the adjustment is idempotent, so
      entries do not drift between the refreshes of one half hour. */
  lemma RefreshStableOffHalfHour(ctx: Context, point: MeterPoint, later: Instant)
    requires RefreshPoint(ctx, point).entry.Some?
    requires ActiveTariffCode(later, point.agreements).Some?
    requires !OnHalfHour(later)
    ensures RefreshPoint(ctx.(now := later, existing := Some(map[point.mpan := RefreshPoint(ctx, point).entry.value])), point)
      == PointOutcome(RefreshPoint(ctx, point).entry, [])
  {
    var e := RefreshPoint(ctx, point).entry.value;
    var ctx' := ctx.(now := later, existing := Some(map[point.mpan := e]));
    assert ctx'.Previous(point.mpan) == Some(e);
    var code := ActiveTariffCode(ctx.now, point.agreements).value;
    var previous := ctx.Previous(point.mpan);
    if !MustFetch(ctx.now, previous) {
      AdjustIdempotent(previous.value, ctx.dispatches);
    } else if ctx.fetch(ctx.RequestFor(code, point.isSmartMeter)).Some? {
      AdjustIdempotent(ctx.fetch(ctx.RequestFor(code, point.isSmartMeter)).value, ctx.dispatches);
    } else {
      AdjustIdempotent(previous.value, ctx.dispatches);
    }
  }

  /** A refresh makes at most one fetch per meter point. */
  lemma {:induction false} RefreshRequestCount(ctx: Context, points: seq<MeterPoint>)
    ensures |RefreshPoints(ctx, points).requests| <= |points|
    decreases |points|
  {
    if |points| > 0 {
      var n := |points| - 1;
      RefreshRequestCount(ctx, points[..n]);
      assert |RefreshPointIn(ctx)(points[n]).requests| <= 1;
    }
  }
}

=== FILE: scenarios.dfy ===
/** The unit tests' concrete cases, replayed on the model. Instants are
    seconds on a local wall clock at UTC+01:00 counted from the Unix epoch,
    so 2023-07-14T00:00:00+01:00 is 1689292800; the `Z` instants of the
    tariff tests are converted to that clock. */
module Scenarios {
  import opened Optional
  import opened Time
  import opened Rates
  import opened Tariffs
  import opened Dispatches
  import opened RatesRefresh
  import opened OffPeak

  // ---------------------------------------------------------------------
  // get_active_tariff_code

  /** The five gas agreements the tariff tests share; `lastOpen` drops the
      end date of the last one. The fourth is zero-length. */
  function TestAgreements(lastOpen: bool): seq<Agreement>
  {
    [ Agreement("G-1R-FIX-12M-18-02-14-G", 1522627200, Some(1554163200)),
      Agreement("G-1R-FIX-12M-18-12-21-G", 1554163200, Some(1585785600)),
      Agreement("G-1R-SUPER-GREEN-12M-20-02-12-G", 1585785600, Some(1617321600)),
      Agreement("G-1R-VAR-20-10-01-G", 1617321600, Some(1617321600)),
      Agreement("G-1R-FIX-12M-21-02-16-G", 1617321600, if lastOpen then None else Some(1648857600)) ]
  }

  /** 2022-03-23: the last agreement is the active one; the zero-length
      agreement starting on the same day does not displace it. */
  lemma ActiveTariffExample()
    ensures ActiveTariffCode(1647997200, TestAgreements(false)) == Some("G-1R-FIX-12M-21-02-16-G")
  {
    SoleActiveAgreementWins(1647997200, TestAgreements(false), 4);
  }

  /** 2022-04-03: every agreement has ended. */
  lemma EndedTariffExample()
    ensures ActiveTariffCode(1648947600, TestAgreements(false)) == None
  {
    AllEndedMeansNone(1648947600, TestAgreements(false));
  }

  /** 2018-01-01: no agreement has started. */
  lemma NotStartedTariffExample()
    ensures ActiveTariffCode(1514768400, TestAgreements(false)) == None
  {
    NoneStartedMeansNone(1514768400, TestAgreements(false));
  }

  /** 2022-04-01 with the last agreement open-ended. */
  lemma OpenEndedTariffExample()
    ensures ActiveTariffCode(1648774800, TestAgreements(true)) == Some("G-1R-FIX-12M-21-02-16-G")
  {
    OpenEndedAgreementActive(1648774800, TestAgreements(true), 4);
  }

  // ---------------------------------------------------------------------
  // async_refresh_electricity_rates_data

  const PeriodFrom: Instant := 1689292800   // 2023-07-14T00:00:00+01:00
  const Current: Instant := 1689330601      // 2023-07-14T10:30:01+01:00
  const TestMpan: string := "1234567890"
  const TestTariff: string := "E-1R-SUPER-GREEN-24M-21-07-30-A"

  /** The account of the refresh tests: one smart meter point whose single
      agreement runs through July 2023, or (inactive) through August only. */
  function TestAccount(activeAgreement: bool): AccountInfo
  {
    var agreement :=
      if activeAgreement then Agreement(TestTariff, 1688169600, Some(1690848000))
      else Agreement(TestTariff, 1690848000, Some(1693526400));
    AccountInfo([MeterPoint(TestMpan, true, [agreement])])
  }

  /** A fetch that always returns `rates`. */
  function Returning(rates: RateSet): Fetcher
  {
    _ => Some(rates)
  }

  /** 30-minute periods from `from`, cycling through `prices`: the shape of
      the tests' `create_rate_data` fixture. */
  function HalfHourSlots(from: Instant, count: nat, prices: seq<int>): (rates: RateSet)
    requires |prices| > 0
    ensures |rates| == count
    ensures forall k :: 0 <= k < count ==>
      rates[k] == Rate(from + k * HalfHour, from + (k + 1) * HalfHour, prices[k % |prices|], false)
  {
    seq(count, k requires 0 <= k < count => Rate(from + k * HalfHour, from + (k + 1) * HalfHour, prices[k % |prices|], false))
  }

  /** The refresh of an account with a single meter point is that point's
      refresh. */
  lemma SinglePointRefresh(now: Instant, fetch: Fetcher, point: MeterPoint, existing: Option<RateCache>, dispatches: DispatchLists)
    ensures var o := RefreshPoint(Context(now, fetch, existing, dispatches), point);
      RefreshElectricityRates(now, fetch, Some(AccountInfo([point])), existing, dispatches)
        == RefreshResult(if o.entry.Some? then map[point.mpan := o.entry.value] else map[], o.requests)
  {
    var ctx := Context(now, fetch, existing, dispatches);
    assert [point][..0] == [];
    assert RefreshPointIn(ctx)(point) == RefreshPoint(ctx, point);
    assert Assemble([], RefreshPointIn(ctx)) == Refreshed(map[], []);
  }

  /** The refresh tests' fetch window around 10:30:01 on 2023-07-14. */
  lemma TestWindow()
    ensures WindowStart(Current) == 1689206400 && WindowEnd(Current) == 1689465600
    ensures OnHalfHour(Current)
  {
  }

  /** Without account information the existing cache comes back as it is
      and nothing is fetched. */
  lemma NoAccountExample(existing: RateSet, fetched: RateSet)
    ensures RefreshElectricityRates(Current, Returning(fetched), None, Some(map[TestMpan := existing]), NoDispatches)
      == RefreshResult(map[TestMpan := existing], [])
  {
  }

  /** With no active agreement the cache comes back empty, without a fetch. */
  lemma NoActiveTariffExample(existing: RateSet, fetched: RateSet)
    ensures RefreshElectricityRates(Current, Returning(fetched), Some(TestAccount(false)),
      Some(map[TestMpan := existing]), NoDispatches) == RefreshResult(map[], [])
  {
    var ctx := Context(Current, Returning(fetched), Some(map[TestMpan := existing]), NoDispatches);
    InactivePointDropped(ctx, TestAccount(false).electricityMeterPoints[0]);
  }

  /** The minute field of 10:mm:01 on 2023-07-14 is `mm`. */
  lemma TestMinute(minute: int)
    requires 0 <= minute < 60
    ensures MinuteOfHour(PeriodFrom + 10 * 3600 + minute * 60 + 1) == minute
  {
    var now := PeriodFrom + 10 * 3600 + minute * 60 + 1;
    assert now == (469258 * 60 + minute) * 60 + 1;
    assert now / Minute == 469258 * 60 + minute;
  }

  /** At 10:mm:01 for every minute other than :00 and :30 the cached entry
      comes back unchanged and nothing is fetched. */
  lemma OffHalfHourExample(minute: int, existing: RateSet, fetched: RateSet)
    requires 0 <= minute < 60 && minute != 0 && minute != 30
    ensures RefreshElectricityRates(PeriodFrom + 10 * 3600 + minute * 60 + 1, Returning(fetched), Some(TestAccount(true)),
      Some(map[TestMpan := existing]), NoDispatches) == RefreshResult(map[TestMpan := existing], [])
  {
    var now := PeriodFrom + 10 * 3600 + minute * 60 + 1;
    TestMinute(minute);
    var ctx := Context(now, Returning(fetched), Some(map[TestMpan := existing]), NoDispatches);
    var point := TestAccount(true).electricityMeterPoints[0];
    assert !OnHalfHour(now);
    assert point.agreements[0].ActiveAt(now);
    assert ctx.Previous(point.mpan) == Some(existing);
    CachedEntryReusedOffHalfHour(ctx, point);
    SinglePointRefresh(now, Returning(fetched), point, Some(map[TestMpan := existing]), NoDispatches);
  }

  /** With no cache at all, the 10:30:01 refresh fetches 2023-07-13 to
      2023-07-16 and the cache is exactly what was fetched. */
  lemma NoCacheExample(fetched: RateSet)
    ensures RefreshElectricityRates(Current, Returning(fetched), Some(TestAccount(true)), None, NoDispatches)
      == RefreshResult(map[TestMpan := fetched], [FetchRequest(TestTariff, true, 1689206400, 1689465600)])
  {
    var point := TestAccount(true).electricityMeterPoints[0];
    var ctx := Context(Current, Returning(fetched), None, NoDispatches);
    TestWindow();
    FetchesWindowWhenStale(ctx, point);
    SinglePointRefresh(Current, Returning(fetched), point, None, NoDispatches);
  }

  /** A cache without the MPAN, or holding an entry while `now` is on the
      half hour, is replaced by what was fetched. */
  lemma StaleCacheExample(cache: RateCache, fetched: RateSet)
    ensures RefreshElectricityRates(Current, Returning(fetched), Some(TestAccount(true)), Some(cache), NoDispatches)
      == RefreshResult(map[TestMpan := fetched], [FetchRequest(TestTariff, true, 1689206400, 1689465600)])
  {
    var point := TestAccount(true).electricityMeterPoints[0];
    var ctx := Context(Current, Returning(fetched), Some(cache), NoDispatches);
    TestWindow();
    FetchesWindowWhenStale(ctx, point);
    SinglePointRefresh(Current, Returning(fetched), point, Some(cache), NoDispatches);
  }

  /** When the fetch returns nothing, the cached entry is kept verbatim. */
  lemma FailedFetchExample(existing: RateSet)
    ensures RefreshElectricityRates(Current, _ => None, Some(TestAccount(true)), Some(map[TestMpan := existing]), NoDispatches)
      == RefreshResult(map[TestMpan := existing], [FetchRequest(TestTariff, true, 1689206400, 1689465600)])
  {
    var point := TestAccount(true).electricityMeterPoints[0];
    var fetch: Fetcher := _ => None;
    var ctx := Context(Current, fetch, Some(map[TestMpan := existing]), NoDispatches);
    TestWindow();
    FetchesWindowWhenStale(ctx, point);
    FailedFetchKeepsPrevious(ctx, point);
    SinglePointRefresh(Current, fetch, point, Some(map[TestMpan := existing]), NoDispatches);
  }

  /** The smart-charge dispatch of the adjustment test: 02:30 to 03:30. */
  const TestDispatches: DispatchLists :=
    DispatchLists([Dispatch(PeriodFrom + 9000, PeriodFrom + 12600, "smart-charge")], [])

  /** On one day of prices 1, 2, 3, 4 repeated, the 02:30-03:30 dispatch
      overlaps exactly periods 5 and 6; periods 4 and 7 only touch it. */
  lemma {:induction false} DispatchOverlapsSlotsFiveAndSix(k: int)
    requires 0 <= k < 48
    ensures InAnyDispatch(HalfHourSlots(PeriodFrom, 48, [1, 2, 3, 4])[k], TestDispatches.All()) <==> (k == 5 || k == 6)
  {
    var r := HalfHourSlots(PeriodFrom, 48, [1, 2, 3, 4])[k];
    var d := TestDispatches.All()[0];
    assert TestDispatches.All() == [d];
    assert InAnyDispatch(r, TestDispatches.All()) <==> Overlaps(r, d);
  }

  /** The adjustment test: periods 5 and 6 take price 1, the day's lowest,
      and the adjusted flag; every other period is unchanged and unflagged. */
  lemma DispatchAdjustmentExample()
    ensures var rates := HalfHourSlots(PeriodFrom, 48, [1, 2, 3, 4]);
      var out := AdjustIntelligentRates(rates, TestDispatches);
      && |out| == 48
      && (forall k :: 0 <= k < 48 && (k == 5 || k == 6) ==> out[k].valueIncVat == 1 && out[k].isIntelligentAdjusted)
      && (forall k :: 0 <= k < 48 && k != 5 && k != 6 ==> out[k] == rates[k] && !out[k].isIntelligentAdjusted)
  {
    var rates := HalfHourSlots(PeriodFrom, 48, [1, 2, 3, 4]);
    forall i | 0 <= i < 48
      ensures 1 <= rates[i].valueIncVat
    {
      assert rates[i].valueIncVat == [1, 2, 3, 4][i % 4];
    }
    LowestPriceUnique(rates, 1, 0);
    forall k | 0 <= k < 48
      ensures InAnyDispatch(rates[k], TestDispatches.All()) <==> (k == 5 || k == 6)
    {
      DispatchOverlapsSlotsFiveAndSix(k);
    }
  }

  /** The whole adjustment test: the refresh fetches the day and hands back
      the adjusted list under the MPAN. */
  lemma DispatchRefreshExample()
    ensures var rates := HalfHourSlots(PeriodFrom, 48, [1, 2, 3, 4]);
      RefreshElectricityRates(Current, Returning(rates), Some(TestAccount(true)), Some(map[]), TestDispatches)
        == RefreshResult(map[TestMpan := AdjustIntelligentRates(rates, TestDispatches)],
                         [FetchRequest(TestTariff, true, 1689206400, 1689465600)])
  {
    var rates := HalfHourSlots(PeriodFrom, 48, [1, 2, 3, 4]);
    var point := TestAccount(true).electricityMeterPoints[0];
    var ctx := Context(Current, Returning(rates), Some(map[]), TestDispatches);
    TestWindow();
    FetchesWindowWhenStale(ctx, point);
    SinglePointRefresh(Current, Returning(rates), point, Some(map[]), TestDispatches);
  }

  // ---------------------------------------------------------------------
  // The off-peak sensor

  /** In a run of consecutive half-hour periods, the period covering an
      instant is the one whose half hour it falls in. */
  lemma SlotAt(from: Instant, count: nat, prices: seq<int>, k: int, offset: int)
    requires |prices| > 0
    requires 0 <= k < count && 0 <= offset < HalfHour
    ensures RateAt(HalfHourSlots(from, count, prices), from + k * HalfHour + offset)
      == Some(HalfHourSlots(from, count, prices)[k])
  {
    var rates := HalfHourSlots(from, count, prices);
    var now := from + k * HalfHour + offset;
    forall j | 0 <= j < |rates| && j != k
      ensures !rates[j].Covers(now)
    {
      if j < k {
        assert rates[j].validTo == from + (j + 1) * HalfHour <= now;
      } else {
        assert now < from + (k + 1) * HalfHour <= rates[j].validFrom;
      }
    }
    SoleCoveringRate(rates, now, k);
  }

  /** Of four periods priced 1, 2, 3, 4, only the first is priced no higher
      than every period. */
  lemma CheapestIsFirst(rates: RateSet, k: int)
    requires |rates| == 4 && 0 <= k < 4
    requires forall i :: 0 <= i < 4 ==> rates[i].valueIncVat == i + 1
    ensures (forall i :: 0 <= i < |rates| ==> rates[k].valueIncVat <= rates[i].valueIncVat) <==> k == 0
  {
    if k != 0 {
      assert rates[0].valueIncVat < rates[k].valueIncVat;
    }
  }

  /** Four periods priced 1, 2, 3, 4: a sample is "off peak" exactly in the
      first, the one at the lowest price. */
  lemma OffPeakExample(k: int, offset: int)
    requires 0 <= k < 4 && 0 <= offset < HalfHour
    ensures OffPeakSample(HalfHourSlots(PeriodFrom, 4, [1, 2, 3, 4]), PeriodFrom + k * HalfHour + offset, LowestPrice, RateAt)
      <==> k == 0
  {
    var rates := HalfHourSlots(PeriodFrom, 4, [1, 2, 3, 4]);
    var now := PeriodFrom + k * HalfHour + offset;
    forall i | 0 <= i < 4
      ensures rates[i].valueIncVat == i + 1
    {
      assert rates[i].valueIncVat == [1, 2, 3, 4][i];
    }
    SlotAt(PeriodFrom, 4, [1, 2, 3, 4], k, offset);
    NaturalSampleIsCheapestNow(rates, now);
    CheapestIsFirst(rates, k);
  }
}

=== FILE: tariffs.dfy ===
/** Which tariff a metering point is on at a given instant
    (`get_active_tariff_code`). */
module Tariffs {
  import opened Optional
  import opened Time

  /** One agreement of a metering point. `validTo == None` is an agreement
      with no end date. */
  datatype Agreement = Agreement(tariffCode: string, validFrom: Instant, validTo: Option<Instant>)
  {
    /** The agreement's half-open window `[validFrom, validTo)` contains `now`;
        an open-ended agreement contains every instant from its start on. */
    predicate ActiveAt(now: Instant)
    {
      validFrom <= now && (validTo.None? || now < validTo.value)
    }
  }

  /** The tariff code of the first agreement in the list that is active at
      `now`, or `None` when no agreement is. The list need not be sorted. */
  function ActiveTariffCode(now: Instant, agreements: seq<Agreement>): (code: Option<string>)
    ensures code.None? <==> forall i :: 0 <= i < |agreements| ==> !agreements[i].ActiveAt(now)
    ensures code.Some? ==>
      exists i :: 0 <= i < |agreements| && agreements[i].ActiveAt(now) && agreements[i].tariffCode == code.value
        && (forall j :: 0 <= j < i ==> !agreements[j].ActiveAt(now))
  {
    if |agreements| == 0 then None
    else if agreements[0].ActiveAt(now) then Some(agreements[0].tariffCode)
    else
      var rest := ActiveTariffCode(now, agreements[1..]);
      assert forall i :: 1 <= i < |agreements| ==> agreements[i] == agreements[1..][i - 1];
      if rest.Some? then
        var k :| 0 <= k < |agreements[1..]| && agreements[1..][k].ActiveAt(now)
          && agreements[1..][k].tariffCode == rest.value
          && (forall j :: 0 <= j < k ==> !agreements[1..][j].ActiveAt(now));
        assert agreements[k + 1] == agreements[1..][k];
        rest
      else rest
  }

  /** When exactly one agreement is active, its code is the answer, whatever
      the other (ended, future or zero-length) agreements around it are. */
  lemma SoleActiveAgreementWins(now: Instant, agreements: seq<Agreement>, k: int)
    requires 0 <= k < |agreements| && agreements[k].ActiveAt(now)
    requires forall i :: 0 <= i < |agreements| && i != k ==> !agreements[i].ActiveAt(now)
    ensures ActiveTariffCode(now, agreements) == Some(agreements[k].tariffCode)
  {
  }

  /** A zero-length agreement (`validFrom == validTo`) is active at no
      instant, so it can never displace another agreement. */
  lemma ZeroLengthAgreementNeverActive(a: Agreement, now: Instant)
    requires a.validTo == Some(a.validFrom)
    ensures !a.ActiveAt(now)
  {
  }

  /** Once every agreement has ended, there is no active tariff. */
  lemma AllEndedMeansNone(now: Instant, agreements: seq<Agreement>)
    requires forall i :: 0 <= i < |agreements| ==>
      agreements[i].validTo.Some? && agreements[i].validTo.value <= now
    ensures ActiveTariffCode(now, agreements) == None
  {
  }

  /** Before any agreement has started, there is no active tariff. */
  lemma NoneStartedMeansNone(now: Instant, agreements: seq<Agreement>)
    requires forall i :: 0 <= i < |agreements| ==> now < agreements[i].validFrom
    ensures ActiveTariffCode(now, agreements) == None
  {
  }

  /** An agreement without an end date is active from its start onwards, so
      some tariff code is returned at every such instant; it is the
      open-ended agreement's own code when no earlier agreement is active. */
  lemma OpenEndedAgreementActive(now: Instant, agreements: seq<Agreement>, k: int)
    requires 0 <= k < |agreements|
    requires agreements[k].validTo.None? && agreements[k].validFrom <= now
    ensures ActiveTariffCode(now, agreements).Some?
    ensures (forall j :: 0 <= j < k ==> !agreements[j].ActiveAt(now)) ==>
      ActiveTariffCode(now, agreements) == Some(agreements[k].tariffCode)
  {
    assert agreements[k].ActiveAt(now);
  }
}

=== FILE: time.dfy ===
/** Instants and the calendar arithmetic the rate engine needs.

    An instant is a whole number of seconds on the local wall clock of one
    fixed UTC offset, so "start of day" and "minute of the hour" are plain
    integer arithmetic. Dafny's Euclidean `/` and `%` agree with Python's
    flooring on the negative side, which is what a datetime would do. */
module Time {

  type Instant = int

  const Minute: int := 60
  const HalfHour: int := 1800
  const Hour: int := 3600
  const Day: int := 86400

  /** The `minute` field of a datetime at instant `t`. */
  function MinuteOfHour(t: Instant): (m: int)
    ensures 0 <= m < 60
  {
    (t / Minute) % 60
  }

  /** `t.minute % 30 == 0`: the half-hour trigger shared by the rate refresh
      and the off-peak sensor. The seconds are ignored, so 10:30:59 counts. */
  predicate OnHalfHour(t: Instant)
  {
    MinuteOfHour(t) % 30 == 0
  }

  /** `t.replace(hour=0, minute=0, second=0, microsecond=0)`. */
  function StartOfDay(t: Instant): (d: Instant)
    ensures d % Day == 0
    ensures d <= t < d + Day
  {
    t - t % Day
  }

  /** First instant of the rolling fetch window: midnight of yesterday. */
  function WindowStart(now: Instant): Instant
  {
    StartOfDay(now - Day)
  }

  /** End (exclusive) of the rolling fetch window: midnight of the day after tomorrow. */
  function WindowEnd(now: Instant): Instant
  {
    StartOfDay(now + 2 * Day)
  }

  /** A midnight that lies within the day before `t` is `StartOfDay(t)`:
      the two ensures of `StartOfDay` pin its result down uniquely. */
  lemma StartOfDayUnique(t: Instant, d: Instant)
    requires d % Day == 0
    requires d <= t < d + Day
    ensures d == StartOfDay(t)
  {
    var s := StartOfDay(t);
    assert d == Day * (d / Day);
    assert s == Day * (s / Day);
    var q := d / Day - s / Day;
    assert d - s == Day * q;
    assert -Day < d - s < Day;
  }

  /** Moving a whole number of days moves the start of the day with it. */
  lemma StartOfDayShift(t: Instant, k: int)
    ensures StartOfDay(t + k * Day) == StartOfDay(t) + k * Day
  {
    var s := StartOfDay(t);
    assert s == Day * (s / Day);
    assert s + k * Day == Day * (s / Day + k);
    assert (s + k * Day) % Day == 0;
    StartOfDayUnique(t + k * Day, s + k * Day);
  }

  /** The fetch window is the three whole local days yesterday, today and
      tomorrow, so it always straddles `now` with at least a day on each side. */
  lemma FetchWindowIsThreeDays(now: Instant)
    ensures WindowStart(now) % Day == 0 && WindowEnd(now) % Day == 0
    ensures WindowStart(now) == StartOfDay(now) - Day
    ensures WindowEnd(now) == StartOfDay(now) + 2 * Day
    ensures WindowEnd(now) - WindowStart(now) == 3 * Day
    ensures WindowStart(now) + Day <= now < WindowEnd(now) - Day
  {
    StartOfDayShift(now, -1);
    StartOfDayShift(now, 2);
  }

  /** The half-hour trigger fires exactly in the first minute after each
      :00 and :30, i.e. when fewer than 60 seconds have passed since the
      last half-hour mark. */
  lemma OnHalfHourIffFirstMinute(t: Instant)
    ensures OnHalfHour(t) <==> t % HalfHour < Minute
  {
    var q := t / Minute;
    var s := t % Minute;
    assert t == Minute * q + s;
    var h := q / 60;
    var m := q % 60;
    assert q == 60 * h + m;
    assert MinuteOfHour(t) == m;
    var hh := m / 30;
    var mm := m % 30;
    assert m == 30 * hh + mm && 0 <= hh <= 1;
    assert t == HalfHour * (2 * h + hh) + (Minute * mm + s);
    assert 0 <= Minute * mm + s < HalfHour;
    assert t % HalfHour == Minute * mm + s by {
      HalfHourRemainder(t, 2 * h + hh, Minute * mm + s);
    }
    if mm == 0 {
      assert t % HalfHour == s;
    } else {
      assert Minute * mm >= Minute;
    }
  }

  /** `MinuteOfHour(t)` is the minute of the hour `t` falls in: `t` lies in
      the `m`-th whole minute after the start of its hour. */
  lemma MinuteOfHourLocatesInstant(t: Instant)
    ensures t - t % Hour + Minute * MinuteOfHour(t) <= t < t - t % Hour + Minute * (MinuteOfHour(t) + 1)
  {
    var q := t / Minute;
    var s := t % Minute;
    assert t == Minute * q + s;
    var h := q / 60;
    var m := q % 60;
    assert q == 60 * h + m;
    assert MinuteOfHour(t) == m;
    assert t == Hour * h + (Minute * m + s);
    assert 0 <= Minute * m + s < Hour;
    HourRemainder(t, h, Minute * m + s);
  }

  lemma HourRemainder(t: int, a: int, b: int)
    requires t == Hour * a + b && 0 <= b < Hour
    ensures t % Hour == b
  {
    var q := t / Hour;
    var r := t % Hour;
    assert t == Hour * q + r;
    assert Hour * (a - q) == r - b;
  }

  lemma HalfHourRemainder(t: int, a: int, b: int)
    requires t == HalfHour * a + b && 0 <= b < HalfHour
    ensures t % HalfHour == b
  {
    var q := t / HalfHour;
    var r := t % HalfHour;
    assert t == HalfHour * q + r;
    assert HalfHour * (a - q) == r - b;
  }
}
